=== FILE: README.md ===
# DevHabit authentication and tag endpoints, modelled in Dafny

This project models two controllers of the DevHabit habit-tracking API.

**Authentication (`AuthController`).** There are three one-shot transitions over the
visible state of both database contexts. That state holds the identity store's credential
records, the application's user profiles and the refresh-token rows.

- *Register* opens one transaction. The identity context and the application context both
  use it. Inside it, Register creates the credential through the identity store, adds the
  linked profile, issues tokens, adds a refresh-token row, and then commits. If credential
  creation fails, it answers 400 with a code-to-description error map. Every exit before
  the commit rolls everything back.
- *Login* checks the email and password. A failure answers 401 and changes nothing. A
  success adds a new refresh-token row for that user.
- *Refresh* finds the row whose value equals the presented one exactly. It refuses a
  missing row or one whose expiry is strictly before now. Otherwise it overwrites that same
  row's value and expiry in place.

**Tags (`TagsController`).** List, read, create, update and delete operate on one tag
store. Each is scoped to the caller's user id. Create checks validation, then the per-user
quota, then per-user name uniqueness, in that order. The HATEOAS links are a pure function
of the tag count and the quota.

The style is functional. Each endpoint is a pure function from (state, inputs) to
(response, new state). The following are parameters:

- the clock, as integer `DateTime` ticks;
- the generated ids (row ids, profile ids, tag ids);
- the identity store's `CreateAsync` and `CheckPasswordAsync`, as oracles;
- token issuance;
- the FluentValidation validator;
- the points where the authentication endpoints' database work throws: opening the transaction, the credential insert inside `CreateAsync`, the lookups, the saves and the commit.

Modules:

- `Common`: option type, `string.IsNullOrWhiteSpace`, LINQ's `FirstOrDefault` as an index search.
- `Transaction`: the begin/write/commit/rollback effect of the shared transaction.
- `Identity`: credential records, the identity oracles, and `ToDictionary` of the errors.
- `Tokens`: the issuer type, the generator as written, and a corrected refresh-value generator.
- `Auth`: the store and the three endpoints.
- `AuthProperties`: store invariants and properties that span several calls.
- `Tags`: the tag store, the five endpoints and the two link builders.
- `TagProperties`: quota, uniqueness and isolation lemmas.

## Model

| member | source | states |
|---|---|---|
| `Common.IsNullOrWhiteSpace` | DevHabit.Api/Controllers/TagsController.cs:38 | a user id is blank exactly when it is null or nothing is left after trimming its leading white space (the .NET white-space set) |
| `Common.FirstIndex` | DevHabit.Api/Controllers/TagsController.cs:130 | `FirstOrDefault` as an index: the found element satisfies the predicate and no earlier one does, and nothing is found exactly when no element satisfies it |
| `Transaction.Begin` | DevHabit.Api/Controllers/AuthController.cs:31 | a transaction just opened commits or rolls back to the state it was opened on |
| `Transaction.Write` | DevHabit.Api/Controllers/AuthController.cs:52-53 | a write enlisted in the transaction is included by a later commit and excluded by a rollback |
| `Transaction.CommitPublishesWrites` | DevHabit.Api/Controllers/AuthController.cs:68 | committing after any sequence of enlisted writes yields exactly their combined effect, in order, on the opened state |
| `Transaction.RollbackDiscardsWrites` | DevHabit.Api/Controllers/AuthController.cs:31 | disposing the transaction without a commit, after any sequence of writes, leaves the state it was opened on |
| `Auth.AddDays` | DevHabit.Api/Controllers/AuthController.cs:63 | the expiry is a whole number of days after the clock reading: later exactly when the day count is positive, equal exactly when it is zero |
| `Identity.FindByEmail` | DevHabit.Api/Controllers/AuthController.cs:76 | returns a credential holding exactly that email, or none exactly when no credential has it |
| `Identity.FindById` | DevHabit.Api/Controllers/AuthController.cs:98-99 | the `User` navigation of a row resolves to the credential with that id, and is absent exactly when no credential has it |
| `Identity.ToDictionary` | DevHabit.Api/Controllers/AuthController.cs:39-45 | yields a map exactly when the error codes are pairwise distinct; the map's keys are the codes and each code maps to its error's description |
| `Tokens.AsWrittenIssuer` | DevHabit.Api/Services/TokenProvider.cs:15-18 | as written, every issued refresh value is the empty string and the access token is the signed request |
| `Tokens.FreshIssuer` | DevHabit.Api/Services/TokenProvider.cs:46-49 | corrected generator: every refresh value is non-empty and reads back as the nonce it was made from, so values from different nonces differ; the access token is the signed request |
| `Tokens.RefreshValueInjective` | DevHabit.Api/Services/TokenProvider.cs:46-49 | corrected generator: two nonces give the same refresh value only if they are equal, and no value is empty |
| `Auth.TokenIndex` | DevHabit.Api/Controllers/AuthController.cs:98-100 | finds the first row whose value equals the presented value exactly, and finds none exactly when no row holds it |
| `Auth.Register` | DevHabit.Api/Controllers/AuthController.cs:28-71 | the answer is 200, 400 or 500 (never 401); any outcome other than 200 leaves all three stores unchanged; 500 covers a throw when the transaction opens, inside `CreateAsync`, at either save or at the commit, and a duplicate error code; 200 happens exactly when credential creation succeeds and nothing throws; 400 happens exactly when nothing throws before `CreateAsync` answers and creation fails with distinct codes, and carries the title "Bad Request", the detail "Unable to register user" and the code-to-description map; on success exactly one credential, one profile linked to the new id, and one row are added, the row holding the issued refresh value with expiry now + `RefreshTokenExpirationDays` |
| `Auth.Login` | DevHabit.Api/Controllers/AuthController.cs:73-93 | 401 happens exactly when the email lookup completes and the email is unknown or the password check fails; 500 happens exactly when the lookup throws, or the credentials are valid and the save throws; any failure leaves the store unchanged; success appends one row for that user with expiry now + days and keeps every earlier row, and the tokens are issued for that user |
| `Auth.Refresh` | DevHabit.Api/Controllers/AuthController.cs:95-112 | 401 happens exactly when the row lookup completes and no row matches or the first match's expiry is strictly before now, so a row expiring at now is accepted; 500 happens exactly when the lookup throws, or an unexpired row matches and the save throws; the row count, credentials and profiles never change; success rewrites only the matched row's value and expiry, keeps its id and user, and issues tokens for that row's user |
| `AuthProperties.RegisterPreservesConsistent` | DevHabit.Api/Controllers/AuthController.cs:31-68 | with a new credential id and a fresh row id and value, registration keeps every credential paired with exactly one profile, keeps rows pointing at existing credentials, and keeps row ids and values distinct |
| `AuthProperties.LoginPreservesConsistent` | DevHabit.Api/Controllers/AuthController.cs:82-90 | a login with a fresh row id and value keeps the store consistent |
| `AuthProperties.RefreshPreservesConsistent` | DevHabit.Api/Controllers/AuthController.cs:105-109 | a rotation to a fresh value keeps the store consistent |
| `AuthProperties.RefreshRejectsReplay` | DevHabit.Api/Controllers/AuthController.cs:98-109 | when values are distinct and the new value differs from the presented one, presenting the old value again is refused |
| `AuthProperties.RotatedValueFindsSameRow` | DevHabit.Api/Controllers/AuthController.cs:107-108 | after rotation the new value finds the same row, so a session stays a single refresh chain |
| `AuthProperties.RotationLeavesOtherSessions` | DevHabit.Api/Controllers/AuthController.cs:82-109 | rotating one session's row leaves any other row untouched, and that other session can still be refreshed while unexpired |
| `AuthProperties.SecondRegistrationRejected` | DevHabit.Api/Controllers/AuthController.cs:35-47 | when the identity store refuses taken user names (its default rule), registering the same name a second time fails and adds no second profile |
| `AuthProperties.SameEmailRegistersTwice` | DevHabit.Api/Controllers/AuthController.cs:35-36 | under that default rule alone, a known email with a new name registers again, leaving two profiles with one address |
| `AuthProperties.AsWrittenReplayAccepted` | DevHabit.Api/Services/TokenProvider.cs:46-49 | with the generator as written, a login followed by two refreshes with the same presented value succeeds both times |
| `AuthProperties.AsWrittenImpersonation` | DevHabit.Api/Services/TokenProvider.cs:46-49 | with the generator as written, after users a and b log in, b's refresh value returns access tokens issued for a |
| `AuthProperties.NextNonceFresh` | DevHabit.Api/Services/TokenProvider.cs:46-49 | when every stored value came from an earlier nonce, the next nonce's value is held by no row |
| `AuthProperties.FreshIssuerLogin` | DevHabit.Api/Controllers/AuthController.cs:79-90 | with the corrected generator, a login keeps the store consistent and every stored value traceable to an earlier nonce |
| `AuthProperties.FreshIssuerRefreshRejectsReplay` | DevHabit.Api/Controllers/AuthController.cs:105-109 | with the corrected generator, a successful refresh keeps the store consistent, and presenting the old value again straight after is refused (401, or 500 when that lookup throws) whatever the issuer, options, clock or fault of that next call |
| `Tags.OwnedBy` | DevHabit.Api/Controllers/TagsController.cs:42 | a tag is in the caller's listing exactly when it is in the store and owned by the caller |
| `Tags.CountOwned` | DevHabit.Api/Controllers/TagsController.cs:101 | the caller's count is at most the store's size, and is zero exactly when the caller owns no tag |
| `Tags.NameTaken` | DevHabit.Api/Controllers/TagsController.cs:108 | a name is taken exactly when one of the caller's own tags carries it |
| `Tags.OwnedIndex` | DevHabit.Api/Controllers/TagsController.cs:130 | finds the first tag whose id and owner both match, and finds none exactly when no such tag exists |
| `Tags.GroupByProperty` | DevHabit.Api/Controllers/TagsController.cs:96 | the error map's keys are exactly the failing properties, and each maps to that property's messages in order (never empty) |
| `Tags.CreateLinksForTags` | DevHabit.Api/Controllers/TagsController.cs:159-169 | the first link is always self/GET; a create/POST link is present exactly when count < max; no other links, so there are two links under the quota and one at or above it |
| `Tags.CreateLinksForTag` | DevHabit.Api/Controllers/TagsController.cs:171-181 | the links are self, update and delete, in that order, with methods GET, PUT and DELETE, all for this id |
| `Tags.GetTags` | DevHabit.Api/Controllers/TagsController.cs:34-58 | 401 exactly for a null or blank user id; otherwise the items are the caller's tags one for one, each with its per-tag links when links are requested, and the collection links follow the count and the quota |
| `Tags.GetTag` | DevHabit.Api/Controllers/TagsController.cs:61-77 | 401 exactly for a blank caller; 404 exactly when no tag matches both id and owner; otherwise it returns a tag with that id owned by the caller |
| `Tags.CreateTag` | DevHabit.Api/Controllers/TagsController.cs:80-122 | 401, then 400 with the grouped errors, then 400 for the quota (count >= max), then 409 for a name the caller already uses, each exactly under its condition and in that order; only success changes the store, by appending one tag owned by the caller |
| `Tags.UpdateTag` | DevHabit.Api/Controllers/TagsController.cs:125-140 | 401 for a blank caller, 404 exactly when no tag matches id and owner; success rewrites only that tag's name, description and update time |
| `Tags.DeleteTag` | DevHabit.Api/Controllers/TagsController.cs:143-157 | 401 for a blank caller, 404 exactly when no tag matches id and owner; success removes only that position and keeps every other tag in order |
| `TagProperties.OwnedByAppend` | DevHabit.Api/Controllers/TagsController.cs:42 | filtering by owner distributes over concatenation of stores |
| `TagProperties.CreateAddsOneOwnedTag` | DevHabit.Api/Controllers/TagsController.cs:106-115 | a successful create raises the caller's count by one and leaves every other user's tags unchanged |
| `TagProperties.CreatePreservesQuota` | DevHabit.Api/Controllers/TagsController.cs:101-104 | if no user exceeds the quota before a create, none does after |
| `TagProperties.CreatePreservesUniqueNames` | DevHabit.Api/Controllers/TagsController.cs:108-111 | create never gives a user two tags with one name |
| `TagProperties.CreatePreservesUniqueIds` | DevHabit.Api/Controllers/TagsController.cs:106-113 | create with a fresh id keeps tag ids unique |
| `TagProperties.UpdateIsolation` | DevHabit.Api/Controllers/TagsController.cs:130-136 | an update keeps every user's count and leaves other users' tags unchanged |
| `TagProperties.UpdatePreservesInvariants` | DevHabit.Api/Controllers/TagsController.cs:130-136 | update keeps the quota and unique ids |
| `TagProperties.UpdateMayDuplicateName` | DevHabit.Api/Controllers/TagsController.cs:134 | update does not re-check names: there is a store with unique names where renaming a tag gives its owner two tags of one name |
| `TagProperties.DeleteIsolation` | DevHabit.Api/Controllers/TagsController.cs:148-154 | a delete lowers the caller's count by one and leaves other users' tags unchanged |
| `TagProperties.DeleteRemovesExactlyThatTag` | DevHabit.Api/Controllers/TagsController.cs:148-154 | with unique ids, the store after a delete holds exactly the tags whose id differs from the deleted id |
| `TagProperties.DeletePreservesInvariants` | DevHabit.Api/Controllers/TagsController.cs:148-154 | delete keeps the quota, unique ids and unique names |
| `TagProperties.GetTagsExactlyOwned` | DevHabit.Api/Controllers/TagsController.cs:40-44 | every tag the caller owns appears in the listing, and every listed item is one of the caller's tags |

## Findings

| source | as written | input that shows it | evidently intended | confidence | as-written member | corrected member |
|---|---|---|---|---|---|---|
| DevHabit.Api/Services/TokenProvider.cs:46-49 | `GenerateRefreshToken` returns the empty string on every call | every session's row holds `""`. One login, then two refreshes that both present `""`: both succeed, so a rotated value can be replayed. Users a and b log in, and b's `""` returns access tokens for a. Both examples assume `""` gets past request validation; `RefreshTokenDto` is not part of this model. If its field is a required non-nullable string, `""` is refused with 400 before the action runs, and then no refresh can ever succeed. The impersonation example also needs a second row holding `""` to be saved. The `RefreshToken` entity configuration is not part of this model. If it puts a unique index on `Token`, b's login save (AuthController.cs:90) throws with 500, every registration after the first fails at its token save (AuthController.cs:66), and only the one-row replay remains | a fresh, unguessable, non-empty value on every issuance | high; not executed | `AuthProperties.AsWrittenReplayAccepted`, `AuthProperties.AsWrittenImpersonation` | `AuthProperties.FreshIssuerRefreshRejectsReplay` |

The corrected generator models the random source as a nonce that is never repeated. The
rest of the model takes issuance as a parameter. Its consistency lemmas state the corrected
behaviour as a hypothesis (`IssuesFresh`: the issued value is held by no row), and
`AuthProperties.NextNonceFresh` shows that the corrected generator meets it.

## Notes on the code

- `GenerateRefreshToken` returns the empty string, so no issued refresh value is fresh. See Findings.
- Registration does no checking of its own before it opens the transaction. Inside the transaction, the identity store's `CreateAsync` is the only check.
- The refresh-token row is written inside the registration transaction, before the single commit.
- A refresh value that matches no row and one that matches an expired row get the same empty 401.
- The identity store is configured with `AddIdentity<IdentityUser, IdentityRole>()` and default options (DevHabit.Api/DependencyInjection.cs:132-134). By default `RequireUniqueEmail` is false. Registration passes the name as the user name (AuthController.cs:35). So only a taken name is refused, and a known email under a new name registers a second account and profile (`AuthProperties.SameEmailRegistersTwice`). A later login with that email then reaches `FindByEmailAsync` with two matching accounts, which the identity store answers with an exception. The model does not cover that exception (see `Identity.FindByEmail` below).

## Left out

- Access-token signing. The JWT with subject and email claims, issuer, audience, expiry in minutes and HMAC-SHA256 signature is a `Signer` parameter of the issuer.
- `UserManager` internals: password hashing, password and user-name validators, email normalisation. `CreateAsync` and `CheckPasswordAsync` are oracles.
- `Identity.FindByEmail`: matches the email exactly, without Identity's normalisation. It does not model the exception the identity store raises when two accounts share a normalised email.
- EF Core and Npgsql transaction mechanics (`SetDbConnection`, `UseTransactionAsync`). Only the commit/rollback effect is modelled. A commit that fails halfway is treated as a rollback.
- Concurrent requests, including two simultaneous refreshes of one value and row locking. The model is sequential.
- The clock. `Refresh` reads `DateTime.UtcNow` twice (for the expiry check and for the new expiry). The model uses one `now` per call. `DateTime`'s range limit in `AddDays` is not modelled.
- `Auth.Refresh` requires that every row's user id names an existing credential. This is the database's foreign key, which the source relies on when it dereferences `refreshToken.User`. `AuthProperties.Consistent` includes it, and all three endpoints preserve it.
- Row order. `FirstOrDefaultAsync` has no `ORDER BY`, so the database's order is unspecified. The model takes the first match in store order. Listings also come back in store order.
- Mapping code that is not part of this model: `RegisterUserDto.ToEntity`, `CreateTagDto.ToEntity`, `Tag.UpdateFromDto`, `TagQueries.ProjectToDto`. They are modelled as field copies. The ids they generate are inputs. `UpdateFromDto` is taken to set name, description and the update time.
- `LinkService` URL generation. A link is (action, rel, method, route id), with no href.
- `InMemoryETagStore.SetETag` in `UpdateTag`, response caching, API versioning and media types. The accept header is reduced to the `includeLinks` flag. Links the source leaves null are empty sequences.
- Automatic model validation. `[ApiController]` (AuthController.cs:16, TagsController.cs:20) checks each request body against its DTO's annotations. It can answer 400 before the action runs, for example for a missing or empty required field. The DTO declarations are not part of this model. Likewise `[Authorize(Roles = Roles.Member)]` (TagsController.cs:19) answers 401 or 403 before any tag action runs. Each endpoint is modelled from the point where its action starts, so the tag endpoints' "401 exactly for a blank caller" holds from that point on.
- The FluentValidation rules for tags. The validator is an oracle returning the failures.
- `UserContext`, which resolves the caller's user id. That id is an input.
- A throw inside `TokenProvider.Create` (AuthController.cs:56, :80, :106), for example a signing key too short for HMAC-SHA256, has no fault value of its own. It gives the same outcome as `TokenSaveFails` in registration and `SaveFails` in login and refresh, which stand for it: 500 with the store unchanged.
- Entity configurations (`RefreshToken`, `Tag`) are not part of this model, so no unique index is modelled. A unique index on the tag's (UserId, Name) would make the rename in `TagProperties.UpdateMayDuplicateName` fail at the save (TagsController.cs:136) instead of storing a duplicate.
- Database failures in the tag endpoints. Throw points are modelled only for the authentication endpoints. Inside the identity store, `CheckPasswordAsync` is an oracle that always answers; a throw there is not modelled.
- `GitHubController`, `HabitsController`, `DependencyInjection`, `Program`, `ConfigureSwaggerGenOptions` and the integration-test factory. These are network access, an unfiltered list read, and startup and test plumbing.

=== FILE: auth.dfy ===
/** The three authentication endpoints of `AuthController` as one-shot
    transitions over the credential records, the user profiles and the
    refresh-token rows. The clock, the row and profile ids, the identity
    oracles, token issuance and the points where the database throws are
    inputs. */
module Auth {
  import opened Common
  import opened Identity
  import opened Tokens
  import opened Transaction

  /** `DateTime` ticks (100 ns) in one day. */
  const TicksPerDay: int := 864_000_000_000

  /** `DateTime.AddDays` on ticks: a whole number of days later (or
      earlier, for a negative count). */
  function AddDays(t: int, days: int): (r: int)
    ensures r > t <==> days > 0
    ensures r == t <==> days == 0
    ensures (r - t) % TicksPerDay == 0 && (r - t) / TicksPerDay == days
  {
    t + days * TicksPerDay
  }

  /** The part of `JwtAuthOptions` the endpoints read themselves. */
  datatype JwtAuthOptions = JwtAuthOptions(refreshTokenExpirationDays: int)

  /** The application's profile row, linked to a credential record. */
  datatype User = User(id: string, name: string, email: string, identityId: string, createdAtUtc: int)

  /** A persisted refresh token: `id` is the row's key, `token` its value. */
  datatype RefreshToken = RefreshToken(id: string, userId: string, token: string, expiresAtUtc: int)

  /** The visible state of both database contexts. */
  datatype Db = Db(identityUsers: seq<IdentityUser>, users: seq<User>, refreshTokens: seq<RefreshToken>)

  datatype RegisterUserDto = RegisterUserDto(email: string, name: string, password: string)
  datatype LoginUserDto = LoginUserDto(email: string, password: string)

  /** The HTTP outcome: 200 with tokens, the 400 problem with its error
      map, an empty 401, or an exception surfacing as 500. */
  datatype Response =
    | Ok(tokens: AccessTokens)
    | Problem(status: int, title: string, detail: string, errors: map<string, string>)
    | Unauthorized
    | ServerError

  /** Where, if anywhere, registration's database work throws: opening
      or enlisting the transaction, the credential insert inside
      `CreateAsync`, either save, or the commit. `TokenSaveFails` also
      stands for a throw inside `TokenProvider.Create` (a signing key too
      short for HMAC-SHA256, say): the outcome is the same 500 with a
      rollback. */
  datatype RegisterFault = NoFault | BeginFails | CreateFails | ProfileSaveFails | TokenSaveFails | CommitFails

  /** Where, if anywhere, the database work of a login or a refresh
      throws: the lookup that opens it, or the save that closes it.
      `SaveFails` also stands for a throw inside `TokenProvider.Create`,
      which gives the same 500 with the store unchanged. */
  datatype CallFault = Healthy | LookupFails | SaveFails

  /** The database's foreign key: every refresh-token row belongs to an
      existing credential record. */
  predicate RowsReferenceIdentities(db: Db)
  {
    forall r :: r in db.refreshTokens ==> r.userId in Ids(db.identityUsers)
  }

  /** The first row whose value equals `value` exactly. */
  function TokenIndex(rows: seq<RefreshToken>, value: string): (r: Option<nat>)
    ensures r.Some? ==> r.value < |rows| && rows[r.value].token == value
    ensures r.Some? ==> forall j :: 0 <= j < r.value ==> rows[j].token != value
    ensures r.None? <==> forall j :: 0 <= j < |rows| ==> rows[j].token != value
  {
    FirstIndex(rows, (t: RefreshToken) => t.token == value)
  }

  /** `POST auth/register`. The credential, the profile and the refresh
      row are all written inside one transaction; only the final commit
      publishes them. */
  function Register(db: Db, dto: RegisterUserDto, create: CreateOracle, issue: Issuer,
                    options: JwtAuthOptions, now: int, profileId: string, rowId: string,
                    fault: RegisterFault): (out: (Response, Db))
    // all or nothing: any outcome but success leaves every store as it was
    ensures !out.0.Ok? ==> out.1 == db
    ensures out.0.Ok? || out.0.Problem? || out.0 == ServerError
    ensures out.0.Ok? <==> create(db.identityUsers, dto.email, dto.name, dto.password).Created? && fault == NoFault
    // credential-creation failure: a 400 keyed by error code
    ensures out.0.Problem? <==>
              (fault != BeginFails && fault != CreateFails
               && create(db.identityUsers, dto.email, dto.name, dto.password).Failed?
               && CodesDistinct(create(db.identityUsers, dto.email, dto.name, dto.password).errors))
    ensures out.0.Problem? ==>
              var errors := create(db.identityUsers, dto.email, dto.name, dto.password).errors;
              && out.0.status == 400
              && out.0.title == "Bad Request" && out.0.detail == "Unable to register user"
              && out.0.errors.Keys == Codes(errors)
              && forall e :: e in errors ==> out.0.errors[e.code] == e.description
    // success: exactly one credential, one profile and one row, all for the new id
    ensures out.0.Ok? ==>
              var id := create(db.identityUsers, dto.email, dto.name, dto.password).id;
              && out.0.tokens == issue(TokenRequest(id, dto.email))
              && out.1.identityUsers == db.identityUsers + [IdentityUser(id, dto.email, dto.name)]
              && out.1.users == db.users + [User(profileId, dto.name, dto.email, id, now)]
              && out.1.refreshTokens == db.refreshTokens +
                   [RefreshToken(rowId, id, out.0.tokens.refreshToken, AddDays(now, options.refreshTokenExpirationDays))]
  {
    if fault == BeginFails then (ServerError, db)
    else
      var tx := Begin(db);
      if fault == CreateFails then (ServerError, Rollback(tx))
      else match create(db.identityUsers, dto.email, dto.name, dto.password)
      case Failed(errors) =>
        (match ToDictionary(errors)
         case None => (ServerError, Rollback(tx))
         case Some(m) => (Problem(400, "Bad Request", "Unable to register user", m), Rollback(tx)))
      case Created(id) =>
        var identity := IdentityUser(id, dto.email, dto.name);
        var tx1 := Write(tx, (s: Db) => s.(identityUsers := s.identityUsers + [identity]));
        if fault == ProfileSaveFails then (ServerError, Rollback(tx1))
        else
          var profile := User(profileId, dto.name, dto.email, id, now);
          var tx2 := Write(tx1, (s: Db) => s.(users := s.users + [profile]));
          var tokens := issue(TokenRequest(id, dto.email));
          var row := RefreshToken(rowId, id, tokens.refreshToken, AddDays(now, options.refreshTokenExpirationDays));
          if fault == TokenSaveFails then (ServerError, Rollback(tx2))
          else
            var tx3 := Write(tx2, (s: Db) => s.(refreshTokens := s.refreshTokens + [row]));
            if fault == CommitFails then (ServerError, Rollback(tx3))
            else
              assert fault.NoFault?;
              (Ok(tokens), Commit(tx3))
  }

  /** `POST auth/login`: a verified login opens a new session row. */
  function Login(db: Db, dto: LoginUserDto, checkPassword: PasswordOracle, issue: Issuer,
                 options: JwtAuthOptions, now: int, rowId: string, fault: CallFault): (out: (Response, Db))
    ensures !out.0.Ok? ==> out.1 == db
    ensures out.0 == Unauthorized <==>
              (fault != LookupFails
               && (FindByEmail(db.identityUsers, dto.email).None?
                   || !checkPassword(FindByEmail(db.identityUsers, dto.email).value, dto.password)))
    ensures out.0.Ok? || out.0 == Unauthorized || out.0 == ServerError
    ensures out.0 == ServerError <==>
              (fault == LookupFails
               || (fault == SaveFails && FindByEmail(db.identityUsers, dto.email).Some?
                   && checkPassword(FindByEmail(db.identityUsers, dto.email).value, dto.password)))
    ensures out.0.Ok? ==>
              var u := FindByEmail(db.identityUsers, dto.email).value;
              && out.0.tokens == issue(TokenRequest(u.id, u.email))
              && out.1.identityUsers == db.identityUsers
              && out.1.users == db.users
              && out.1.refreshTokens == db.refreshTokens +
                   [RefreshToken(rowId, u.id, out.0.tokens.refreshToken, AddDays(now, options.refreshTokenExpirationDays))]
  {
    if fault == LookupFails then (ServerError, db)
    else match FindByEmail(db.identityUsers, dto.email)
    case None => (Unauthorized, db)
    case Some(u) =>
      if !checkPassword(u, dto.password) then (Unauthorized, db)
      else
        var tokens := issue(TokenRequest(u.id, u.email));
        var row := RefreshToken(rowId, u.id, tokens.refreshToken, AddDays(now, options.refreshTokenExpirationDays));
        if fault == SaveFails then (ServerError, db)
        else (Ok(tokens), db.(refreshTokens := db.refreshTokens + [row]))
  }

  /** `POST auth/refresh`: the row holding the presented value is rotated
      in place; a missing or strictly expired row is refused. */
  function Refresh(db: Db, presented: string, issue: Issuer, options: JwtAuthOptions,
                   now: int, fault: CallFault): (out: (Response, Db))
    requires RowsReferenceIdentities(db)
    ensures !out.0.Ok? ==> out.1 == db
    ensures out.1.identityUsers == db.identityUsers && out.1.users == db.users
    ensures |out.1.refreshTokens| == |db.refreshTokens|
    ensures out.0 == Unauthorized <==>
              (fault != LookupFails
               && (TokenIndex(db.refreshTokens, presented).None?
                   || db.refreshTokens[TokenIndex(db.refreshTokens, presented).value].expiresAtUtc < now))
    ensures out.0.Ok? || out.0 == Unauthorized || out.0 == ServerError
    ensures out.0 == ServerError <==>
              (fault == LookupFails
               || (fault == SaveFails && TokenIndex(db.refreshTokens, presented).Some?
                   && now <= db.refreshTokens[TokenIndex(db.refreshTokens, presented).value].expiresAtUtc))
    ensures out.0.Ok? ==>
              var i := TokenIndex(db.refreshTokens, presented).value;
              var row := db.refreshTokens[i];
              && out.0.tokens == issue(TokenRequest(row.userId, FindById(db.identityUsers, row.userId).value.email))
              && out.1.refreshTokens[i] ==
                   row.(token := out.0.tokens.refreshToken,
                        expiresAtUtc := AddDays(now, options.refreshTokenExpirationDays))
              && forall j :: 0 <= j < |db.refreshTokens| && j != i ==> out.1.refreshTokens[j] == db.refreshTokens[j]
  {
    if fault == LookupFails then (ServerError, db)
    else match TokenIndex(db.refreshTokens, presented)
    case None => (Unauthorized, db)
    case Some(i) =>
      var row := db.refreshTokens[i];
      if row.expiresAtUtc < now then (Unauthorized, db)
      else
        assert row in db.refreshTokens;
        var user := FindById(db.identityUsers, row.userId).value;
        var tokens := issue(TokenRequest(user.id, user.email));
        var rotated := row.(token := tokens.refreshToken,
                            expiresAtUtc := AddDays(now, options.refreshTokenExpirationDays));
        if fault == SaveFails then (ServerError, db)
        else (Ok(tokens), db.(refreshTokens := db.refreshTokens[i := rotated]))
  }
}

=== FILE: auth_properties.dfy ===
/** Store invariants the authentication protocol keeps, and the
    properties that relate several calls: rotation invalidating the
    presented value, independent login sessions, the duplicate-name
    rejection, and the refresh-value defect. */
module AuthProperties {
  import opened Common
  import opened Identity
  import opened Tokens
  import opened Auth

  function ProfileIdentityIds(users: seq<User>): set<string>
  {
    set p | p in users :: p.identityId
  }

  function TokenValues(rows: seq<RefreshToken>): set<string>
  {
    set r | r in rows :: r.token
  }

  function RowIds(rows: seq<RefreshToken>): set<string>
  {
    set r | r in rows :: r.id
  }

  /** No orphan profile and no credential without a profile. */
  predicate ProfilesLinked(db: Db)
  {
    ProfileIdentityIds(db.users) == Ids(db.identityUsers)
  }

  predicate OneProfilePerIdentity(users: seq<User>)
  {
    forall i, j :: 0 <= i < j < |users| ==> users[i].identityId != users[j].identityId
  }

  predicate DistinctRowIds(rows: seq<RefreshToken>)
  {
    forall i, j :: 0 <= i < j < |rows| ==> rows[i].id != rows[j].id
  }

  /** At most one row answers to any presented value. */
  predicate DistinctTokens(rows: seq<RefreshToken>)
  {
    forall i, j :: 0 <= i < j < |rows| ==> rows[i].token != rows[j].token
  }

  /** The state the protocol is meant to keep. */
  predicate Consistent(db: Db)
  {
    && RowsReferenceIdentities(db)
    && ProfilesLinked(db)
    && OneProfilePerIdentity(db.users)
    && DistinctRowIds(db.refreshTokens)
    && DistinctTokens(db.refreshTokens)
  }

  /** The issuer hands out a value no stored row holds. */
  ghost predicate IssuesFresh(issue: Issuer, rows: seq<RefreshToken>)
  {
    forall req :: issue(req).refreshToken !in TokenValues(rows)
  }

  lemma AppendRow(rows: seq<RefreshToken>, row: RefreshToken)
    requires DistinctRowIds(rows) && DistinctTokens(rows)
    requires row.id !in RowIds(rows) && row.token !in TokenValues(rows)
    ensures DistinctRowIds(rows + [row]) && DistinctTokens(rows + [row])
    ensures RowIds(rows + [row]) == RowIds(rows) + {row.id}
    ensures TokenValues(rows + [row]) == TokenValues(rows) + {row.token}
  {
    var rows' := rows + [row];
    forall i, j | 0 <= i < j < |rows'| ensures rows'[i].id != rows'[j].id && rows'[i].token != rows'[j].token {
      if j == |rows| {
        assert rows'[i] in rows;
      }
    }
    assert forall r :: r in rows' <==> r in rows || r == row;
  }

  lemma AppendIdentity(users: seq<IdentityUser>, u: IdentityUser)
    ensures Ids(users + [u]) == Ids(users) + {u.id}
  {
    assert forall x :: x in users + [u] <==> x in users || x == u;
  }

  lemma AppendProfile(users: seq<User>, p: User)
    requires OneProfilePerIdentity(users) && p.identityId !in ProfileIdentityIds(users)
    ensures OneProfilePerIdentity(users + [p])
    ensures ProfileIdentityIds(users + [p]) == ProfileIdentityIds(users) + {p.identityId}
  {
    var users' := users + [p];
    forall i, j | 0 <= i < j < |users'| ensures users'[i].identityId != users'[j].identityId {
      if j == |users| {
        assert users'[i] in users;
      }
    }
    assert forall x :: x in users' <==> x in users || x == p;
  }

  /** Registration keeps the store consistent when the identity store
      hands out a new id and the row id and refresh value are fresh: the
      credential and its profile appear together or not at all. */
  lemma RegisterPreservesConsistent(db: Db, dto: RegisterUserDto, create: CreateOracle, issue: Issuer,
                                    options: JwtAuthOptions, now: int, profileId: string, rowId: string,
                                    fault: RegisterFault)
    requires Consistent(db)
    requires create(db.identityUsers, dto.email, dto.name, dto.password).Created? ==>
               create(db.identityUsers, dto.email, dto.name, dto.password).id !in Ids(db.identityUsers)
    requires rowId !in RowIds(db.refreshTokens)
    requires IssuesFresh(issue, db.refreshTokens)
    ensures Consistent(Register(db, dto, create, issue, options, now, profileId, rowId, fault).1)
  {
    var out := Register(db, dto, create, issue, options, now, profileId, rowId, fault);
    if out.0.Ok? {
      var id := create(db.identityUsers, dto.email, dto.name, dto.password).id;
      var row := RefreshToken(rowId, id, out.0.tokens.refreshToken, AddDays(now, options.refreshTokenExpirationDays));
      AppendIdentity(db.identityUsers, IdentityUser(id, dto.email, dto.name));
      AppendProfile(db.users, User(profileId, dto.name, dto.email, id, now));
      AppendRow(db.refreshTokens, row);
      assert forall r :: r in out.1.refreshTokens ==> r in db.refreshTokens || r == row;
    }
  }

  /** A login keeps the store consistent when its row id and value are
      fresh. */
  lemma LoginPreservesConsistent(db: Db, dto: LoginUserDto, checkPassword: PasswordOracle, issue: Issuer,
                                 options: JwtAuthOptions, now: int, rowId: string, fault: CallFault)
    requires Consistent(db)
    requires rowId !in RowIds(db.refreshTokens)
    requires IssuesFresh(issue, db.refreshTokens)
    ensures Consistent(Login(db, dto, checkPassword, issue, options, now, rowId, fault).1)
  {
    var out := Login(db, dto, checkPassword, issue, options, now, rowId, fault);
    if out.0.Ok? {
      var u := FindByEmail(db.identityUsers, dto.email).value;
      var row := RefreshToken(rowId, u.id, out.0.tokens.refreshToken, AddDays(now, options.refreshTokenExpirationDays));
      AppendRow(db.refreshTokens, row);
      assert forall r :: r in out.1.refreshTokens ==> r in db.refreshTokens || r == row;
    }
  }

  lemma RotateRow(rows: seq<RefreshToken>, i: nat, row: RefreshToken)
    requires i < |rows| && row.id == rows[i].id
    requires DistinctRowIds(rows) && DistinctTokens(rows)
    requires row.token !in TokenValues(rows)
    ensures DistinctRowIds(rows[i := row]) && DistinctTokens(rows[i := row])
    ensures RowIds(rows[i := row]) == RowIds(rows)
  {
    var rows' := rows[i := row];
    forall a, b | 0 <= a < b < |rows'| ensures rows'[a].id != rows'[b].id && rows'[a].token != rows'[b].token {
      if a == i {
        assert rows[b] in rows;
      } else if b == i {
        assert rows[a] in rows;
      }
    }
    forall x | x in RowIds(rows) ensures x in RowIds(rows') {
      var k :| 0 <= k < |rows| && rows[k].id == x;
      assert rows'[k].id == x;
    }
    forall x | x in RowIds(rows') ensures x in RowIds(rows) {
      var k :| 0 <= k < |rows'| && rows'[k].id == x;
      assert rows[k].id == x;
    }
  }

  /** A refresh keeps the store consistent when the new value is fresh. */
  lemma RefreshPreservesConsistent(db: Db, presented: string, issue: Issuer, options: JwtAuthOptions,
                                   now: int, fault: CallFault)
    requires Consistent(db)
    requires IssuesFresh(issue, db.refreshTokens)
    ensures Consistent(Refresh(db, presented, issue, options, now, fault).1)
  {
    var out := Refresh(db, presented, issue, options, now, fault);
    if out.0.Ok? {
      var i := TokenIndex(db.refreshTokens, presented).value;
      RotateRow(db.refreshTokens, i, out.1.refreshTokens[i]);
      assert out.1.refreshTokens == db.refreshTokens[i := out.1.refreshTokens[i]];
      forall r | r in out.1.refreshTokens ensures r.userId in Ids(db.identityUsers) {
        var k :| 0 <= k < |out.1.refreshTokens| && out.1.refreshTokens[k] == r;
        assert db.refreshTokens[k] in db.refreshTokens;
      }
    }
  }

  /** Rotation invalidates the presented value: presenting it again is
      refused, whoever issues and whenever it is presented. */
  lemma {:induction false} RefreshRejectsReplay(db: Db, presented: string, issue: Issuer, options: JwtAuthOptions,
                                                now: int, issue': Issuer, options': JwtAuthOptions, now': int,
                                                fault': CallFault)
    requires RowsReferenceIdentities(db) && DistinctTokens(db.refreshTokens)
    requires Refresh(db, presented, issue, options, now, Healthy).0.Ok?
    requires Refresh(db, presented, issue, options, now, Healthy).0.tokens.refreshToken != presented
    ensures RowsReferenceIdentities(Refresh(db, presented, issue, options, now, Healthy).1)
    ensures Refresh(Refresh(db, presented, issue, options, now, Healthy).1, presented, issue', options', now', fault').0
            == (if fault' == LookupFails then ServerError else Unauthorized)
  {
    var out := Refresh(db, presented, issue, options, now, Healthy);
    var i := TokenIndex(db.refreshTokens, presented).value;
    forall r | r in out.1.refreshTokens ensures r.userId in Ids(out.1.identityUsers) {
      var k :| 0 <= k < |out.1.refreshTokens| && out.1.refreshTokens[k] == r;
      assert db.refreshTokens[k] in db.refreshTokens;
    }
    forall j | 0 <= j < |out.1.refreshTokens| ensures out.1.refreshTokens[j].token != presented {
      if j != i {
        assert db.refreshTokens[j].token != db.refreshTokens[i].token by {
          // DistinctTokens speaks of ordered pairs: name the pair in order
          if j < i {
            assert 0 <= j < i < |db.refreshTokens|;
          } else {
            assert 0 <= i < j < |db.refreshTokens|;
          }
        }
      }
    }
  }

  /** After a rotation the new value leads back to the same row, so one
      login session stays one refresh chain. */
  lemma {:induction false} RotatedValueFindsSameRow(db: Db, presented: string, issue: Issuer,
                                                    options: JwtAuthOptions, now: int)
    requires RowsReferenceIdentities(db) && DistinctTokens(db.refreshTokens)
    requires IssuesFresh(issue, db.refreshTokens)
    requires Refresh(db, presented, issue, options, now, Healthy).0.Ok?
    ensures var out := Refresh(db, presented, issue, options, now, Healthy);
            TokenIndex(out.1.refreshTokens, out.0.tokens.refreshToken) == TokenIndex(db.refreshTokens, presented)
  {
    var out := Refresh(db, presented, issue, options, now, Healthy);
    var i := TokenIndex(db.refreshTokens, presented).value;
    var v := out.0.tokens.refreshToken;
    forall j | 0 <= j < i ensures out.1.refreshTokens[j].token != v {
      assert db.refreshTokens[j] in db.refreshTokens;
    }
    match TokenIndex(out.1.refreshTokens, v)
    case None =>
      // row i holds v after the rotation, so some row matches
      assert false;
    case Some(k) =>
      // no row before i holds v (above), and k > i would skip row i,
      // which does
      if k > i {
        assert false;
      }
  }

  /** Sessions are independent: rotating one session's row leaves every
      other row as it was, and another unexpired session can still be
      refreshed afterwards. */
  lemma {:induction false} RotationLeavesOtherSessions(db: Db, i: nat, k: nat, issue: Issuer, options: JwtAuthOptions,
                                                       now: int, issue': Issuer, now': int)
    requires Consistent(db)
    requires i < |db.refreshTokens| && k < |db.refreshTokens| && i != k
    requires IssuesFresh(issue, db.refreshTokens)
    requires Refresh(db, db.refreshTokens[i].token, issue, options, now, Healthy).0.Ok?
    requires now' <= db.refreshTokens[k].expiresAtUtc
    ensures var db' := Refresh(db, db.refreshTokens[i].token, issue, options, now, Healthy).1;
            && RowsReferenceIdentities(db')
            && db'.refreshTokens[k] == db.refreshTokens[k]
            && Refresh(db', db.refreshTokens[k].token, issue', options, now', Healthy).0.Ok?
  {
    var rows := db.refreshTokens;
    RefreshPreservesConsistent(db, rows[i].token, issue, options, now, Healthy);
    var db' := Refresh(db, rows[i].token, issue, options, now, Healthy).1;
    assert TokenIndex(rows, rows[i].token) == Some(i) by {
      DistinctFirstMatch(rows, i);
    }
    assert db'.refreshTokens[k] == rows[k];
    DistinctFirstMatch(db'.refreshTokens, k);
  }

  /** In a store with distinct values, a row's own value finds that row. */
  lemma DistinctFirstMatch(rows: seq<RefreshToken>, i: nat)
    requires DistinctTokens(rows) && i < |rows|
    ensures TokenIndex(rows, rows[i].token) == Some(i)
  {
    var r := TokenIndex(rows, rows[i].token);
    assert r.Some?;
  }

  ghost predicate HasUserName(users: seq<IdentityUser>, name: string)
  {
    exists u :: u in users && u.userName == name
  }

  /** The rule the identity store enforces with its default options:
      a user name already taken is refused. Email uniqueness is not part
      of the defaults. */
  ghost predicate RejectsKnownUserNames(create: CreateOracle)
  {
    forall users, email, name, password :: HasUserName(users, name) ==> create(users, email, name, password).Failed?
  }

  /** Registering the same name twice fails the second time and adds no
      second profile. */
  lemma SecondRegistrationRejected(db: Db, dto: RegisterUserDto, dto': RegisterUserDto, create: CreateOracle,
                                   issue: Issuer, issue': Issuer, options: JwtAuthOptions, now: int, now': int,
                                   profileId: string, profileId': string, rowId: string, rowId': string,
                                   fault': RegisterFault)
    requires RejectsKnownUserNames(create)
    requires dto'.name == dto.name
    requires Register(db, dto, create, issue, options, now, profileId, rowId, NoFault).0.Ok?
    ensures var db1 := Register(db, dto, create, issue, options, now, profileId, rowId, NoFault).1;
            var second := Register(db1, dto', create, issue', options, now', profileId', rowId', fault');
            && !second.0.Ok?
            && second.1 == db1
            && |second.1.users| == |db.users| + 1
  {
    var db1 := Register(db, dto, create, issue, options, now, profileId, rowId, NoFault).1;
    var id := create(db.identityUsers, dto.email, dto.name, dto.password).id;
    assert IdentityUser(id, dto.email, dto.name) in db1.identityUsers;
    assert HasUserName(db1.identityUsers, dto'.name);
  }

  /** An identity store that follows the default user-name rule: it
      refuses a taken user name and otherwise creates the account. The
      password rules are not part of it; the examples below use a
      password that meets the defaults. */
  function UniqueUserNamesOnly(users: seq<IdentityUser>, email: string, name: string, password: string): CreateResult
  {
    if exists u :: u in users && u.userName == name
    then Failed([IdentityError("DuplicateUserName", "Username '" + name + "' is already taken.")])
    else Created("id-" + name)
  }

  /** Under the default rule an email is not a key: a second registration
      with a known address and a new name succeeds, and two profiles then
      share the address. */
  lemma SameEmailRegistersTwice(issue: Issuer)
    ensures RejectsKnownUserNames(UniqueUserNamesOnly)
    ensures var options := JwtAuthOptions(7);
            var first := Register(Db([], [], []), RegisterUserDto("a@example.com", "alice", "Passw0rd!"),
                                  UniqueUserNamesOnly, issue, options, 0, "p1", "r1", NoFault);
            var second := Register(first.1, RegisterUserDto("a@example.com", "bob", "Passw0rd!"),
                                   UniqueUserNamesOnly, issue, options, 1, "p2", "r2", NoFault);
            && first.0.Ok? && second.0.Ok?
            && |second.1.users| == 2
            && second.1.users[0].email == second.1.users[1].email == "a@example.com"
  {
    var options := JwtAuthOptions(7);
    var first := Register(Db([], [], []), RegisterUserDto("a@example.com", "alice", "Passw0rd!"),
                          UniqueUserNamesOnly, issue, options, 0, "p1", "r1", NoFault);
    assert UniqueUserNamesOnly([], "a@example.com", "alice", "Passw0rd!") == Created("id-alice");
    assert first.1.identityUsers == [IdentityUser("id-alice", "a@example.com", "alice")];
    assert "bob" != "alice" by { assert "bob"[0] != "alice"[0]; }
    assert UniqueUserNamesOnly(first.1.identityUsers, "a@example.com", "bob", "Passw0rd!").Created?;
  }

  /** With the as-written generator every value is empty, so a presented
      refresh value still works after it has been rotated. */
  lemma AsWrittenReplayAccepted(sign: Signer)
    ensures var db := Db([IdentityUser("u1", "a@example.com", "a")],
                         [User("p1", "a", "a@example.com", "u1", 0)], []);
            var issue := AsWrittenIssuer(sign);
            var options := JwtAuthOptions(7);
            var login := Login(db, LoginUserDto("a@example.com", "pw"), (u: IdentityUser, p: string) => true,
                               issue, options, 0, "r1", Healthy);
            && login.0.Ok?
            && RowsReferenceIdentities(login.1)
            && var first := Refresh(login.1, login.0.tokens.refreshToken, issue, options, 1, Healthy);
               && first.0.Ok?
               && RowsReferenceIdentities(first.1)
               && Refresh(first.1, login.0.tokens.refreshToken, issue, options, 2, Healthy).0.Ok?
  {
    var db := Db([IdentityUser("u1", "a@example.com", "a")], [User("p1", "a", "a@example.com", "u1", 0)], []);
    var issue := AsWrittenIssuer(sign);
    var options := JwtAuthOptions(7);
    assert FindByEmail(db.identityUsers, "a@example.com") == Some(db.identityUsers[0]);
    var login := Login(db, LoginUserDto("a@example.com", "pw"), (u: IdentityUser, p: string) => true,
                       issue, options, 0, "r1", Healthy);
    assert login.0.tokens.refreshToken == "";
    assert login.1.refreshTokens == [RefreshToken("r1", "u1", "", AddDays(0, 7))];
    assert "u1" in Ids(login.1.identityUsers);
    var first := Refresh(login.1, "", issue, options, 1, Healthy);
    assert TokenIndex(login.1.refreshTokens, "") == Some(0);
    assert first.1.refreshTokens == [RefreshToken("r1", "u1", "", AddDays(1, 7))];
    assert TokenIndex(first.1.refreshTokens, "") == Some(0);
  }

  /** With the as-written generator every session holds the same value,
      so a user presenting their own refresh value is answered with
      tokens for whichever session's row comes first: here b logs in
      after a and receives access tokens for a. */
  lemma AsWrittenImpersonation(sign: Signer)
    ensures var db := Db([IdentityUser("ua", "a@example.com", "a"), IdentityUser("ub", "b@example.com", "b")],
                         [User("pa", "a", "a@example.com", "ua", 0), User("pb", "b", "b@example.com", "ub", 0)], []);
            var issue := AsWrittenIssuer(sign);
            var options := JwtAuthOptions(7);
            var loginA := Login(db, LoginUserDto("a@example.com", "pw"), (u: IdentityUser, p: string) => true,
                                issue, options, 0, "r1", Healthy);
            var loginB := Login(loginA.1, LoginUserDto("b@example.com", "pw"), (u: IdentityUser, p: string) => true,
                                issue, options, 0, "r2", Healthy);
            && loginA.0.Ok? && loginB.0.Ok?
            && RowsReferenceIdentities(loginB.1)
            && var refresh := Refresh(loginB.1, loginB.0.tokens.refreshToken, issue, options, 1, Healthy);
               && refresh.0.Ok?
               && refresh.0.tokens.accessToken == sign(TokenRequest("ua", "a@example.com"))
  {
    var users := [IdentityUser("ua", "a@example.com", "a"), IdentityUser("ub", "b@example.com", "b")];
    var db := Db(users, [User("pa", "a", "a@example.com", "ua", 0), User("pb", "b", "b@example.com", "ub", 0)], []);
    var issue := AsWrittenIssuer(sign);
    var options := JwtAuthOptions(7);
    var always := (u: IdentityUser, p: string) => true;
    assert FindByEmail(users, "a@example.com") == Some(users[0]);
    assert FindByEmail(users, "b@example.com") == Some(users[1]) by {
      assert "a@example.com" != "b@example.com" by { assert "a@example.com"[0] != "b@example.com"[0]; }
    }
    var loginA := Login(db, LoginUserDto("a@example.com", "pw"), always, issue, options, 0, "r1", Healthy);
    assert loginA.1.refreshTokens == [RefreshToken("r1", "ua", "", AddDays(0, 7))];
    var loginB := Login(loginA.1, LoginUserDto("b@example.com", "pw"), always, issue, options, 0, "r2", Healthy);
    assert loginB.0.tokens.refreshToken == "";
    var rows := loginB.1.refreshTokens;
    assert rows == [RefreshToken("r1", "ua", "", AddDays(0, 7)), RefreshToken("r2", "ub", "", AddDays(0, 7))];
    assert "ua" in Ids(users) && "ub" in Ids(users) by {
      assert users[0] in users && users[1] in users;
    }
    assert TokenIndex(rows, "") == Some(0);
    assert FindById(users, "ua") == Some(users[0]);
  }

  /** Every stored value was produced from a nonce below `next`. */
  ghost predicate IssuedBelow(rows: seq<RefreshToken>, next: nat)
  {
    forall r :: r in rows ==> exists k: nat :: k < next && r.token == RefreshValue(k)
  }

  /** The next nonce's value is held by no row. */
  lemma NextNonceFresh(rows: seq<RefreshToken>, next: nat, sign: Signer)
    requires IssuedBelow(rows, next)
    ensures IssuesFresh(FreshIssuer(sign, next), rows)
  {
    forall r | r in rows ensures r.token != RefreshValue(next) {
      var k: nat :| k < next && r.token == RefreshValue(k);
      RefreshValueInjective(k, next);
    }
  }

  /** With the corrected generator, drawing nonces in order, a login keeps
      the store consistent and every value accounted for. */
  lemma FreshIssuerLogin(db: Db, dto: LoginUserDto, checkPassword: PasswordOracle, sign: Signer,
                         next: nat, options: JwtAuthOptions, now: int, rowId: string)
    requires Consistent(db) && IssuedBelow(db.refreshTokens, next)
    requires rowId !in RowIds(db.refreshTokens)
    ensures var out := Login(db, dto, checkPassword, FreshIssuer(sign, next), options, now, rowId, Healthy);
            Consistent(out.1) && IssuedBelow(out.1.refreshTokens, next + 1)
  {
    NextNonceFresh(db.refreshTokens, next, sign);
    LoginPreservesConsistent(db, dto, checkPassword, FreshIssuer(sign, next), options, now, rowId, Healthy);
    var out := Login(db, dto, checkPassword, FreshIssuer(sign, next), options, now, rowId, Healthy);
    forall r | r in out.1.refreshTokens ensures exists k: nat :: k < next + 1 && r.token == RefreshValue(k) {
      if r !in db.refreshTokens {
        assert r.token == RefreshValue(next);
      } else {
        var k: nat :| k < next && r.token == RefreshValue(k);
      }
    }
  }

  /** With the corrected generator a successful refresh keeps the store
      consistent, and presenting the old value again straight after is
      refused. */
  lemma FreshIssuerRefreshRejectsReplay(db: Db, presented: string, sign: Signer, next: nat,
                                        options: JwtAuthOptions, now: int,
                                        issue': Issuer, options': JwtAuthOptions, now': int, fault': CallFault)
    requires Consistent(db) && IssuedBelow(db.refreshTokens, next)
    requires Refresh(db, presented, FreshIssuer(sign, next), options, now, Healthy).0.Ok?
    ensures var out := Refresh(db, presented, FreshIssuer(sign, next), options, now, Healthy);
            && Consistent(out.1)
            && IssuedBelow(out.1.refreshTokens, next + 1)
            && Refresh(out.1, presented, issue', options', now', fault').0
               == (if fault' == LookupFails then ServerError else Unauthorized)
  {
    var issue := FreshIssuer(sign, next);
    NextNonceFresh(db.refreshTokens, next, sign);
    RefreshPreservesConsistent(db, presented, issue, options, now, Healthy);
    var out := Refresh(db, presented, issue, options, now, Healthy);
    var i := TokenIndex(db.refreshTokens, presented).value;
    assert presented in TokenValues(db.refreshTokens) by {
      assert db.refreshTokens[i] in db.refreshTokens;
    }
    RefreshRejectsReplay(db, presented, issue, options, now, issue', options', now', fault');
    forall r | r in out.1.refreshTokens ensures exists k: nat :: k < next + 1 && r.token == RefreshValue(k) {
      var j :| 0 <= j < |out.1.refreshTokens| && out.1.refreshTokens[j] == r;
      if j == i {
        assert r.token == RefreshValue(next);
      } else {
        assert db.refreshTokens[j] in db.refreshTokens;
        var k: nat :| k < next && db.refreshTokens[j].token == RefreshValue(k);
      }
    }
  }
}

=== FILE: common.dfy ===
/** Small shared vocabulary: an optional value (the source's nullable
    references) and the .NET notion of a blank string. */
module Common {

  /** A nullable reference: `None` stands for C#'s `null`. */
  datatype Option<+T> = None | Some(value: T)

  /** The characters `char.IsWhiteSpace` accepts: the Unicode space
      separators, the line and paragraph separators, and the control
      characters U+0009..U+000D and U+0085. */
  predicate IsWhiteSpace(c: char)
  {
    || ('\t' <= c <= '\r')
    || c == ' '
    || c == '\U{0085}'
    || c == '\U{00A0}'
    || c == '\U{1680}'
    || ('\U{2000}' <= c <= '\U{200A}')
    || c == '\U{2028}'
    || c == '\U{2029}'
    || c == '\U{202F}'
    || c == '\U{205F}'
    || c == '\U{3000}'
  }

  /** `string.IsNullOrWhiteSpace`: null, empty, or only white space. It
      agrees with the other reading of "blank": nothing is left once the
      leading white space is trimmed. */
  predicate IsNullOrWhiteSpace(s: Option<string>): (blank: bool)
    ensures blank <==> s.None? || TrimStart(s.value) == ""
  {
    match s
    case None => true
    case Some(v) =>
      BlankIffTrimsToEmpty(v);
      forall i :: 0 <= i < |v| ==> IsWhiteSpace(v[i])
  }

  /** `string.TrimStart()`: `v` without its leading white space. */
  function TrimStart(v: string): (t: string)
    ensures |t| <= |v| && t == v[|v| - |t|..]
    ensures |t| > 0 ==> !IsWhiteSpace(t[0])
    decreases |v|
  {
    if |v| > 0 && IsWhiteSpace(v[0]) then TrimStart(v[1..]) else v
  }

  lemma {:induction false} BlankIffTrimsToEmpty(v: string)
    ensures (forall i :: 0 <= i < |v| ==> IsWhiteSpace(v[i])) <==> TrimStart(v) == ""
    decreases |v|
  {
    if |v| > 0 {
      BlankIffTrimsToEmpty(v[1..]);
      assert forall i :: 1 <= i < |v| ==> v[i] == v[1..][i - 1];
    }
  }

  /** The index of the first element satisfying `p`, as LINQ's
      `FirstOrDefault` finds it. */
  function FirstIndex<T>(s: seq<T>, p: T -> bool): (r: Option<nat>)
    ensures r.Some? ==> r.value < |s| && p(s[r.value])
    ensures r.Some? ==> forall j :: 0 <= j < r.value ==> !p(s[j])
    ensures r.None? <==> forall j :: 0 <= j < |s| ==> !p(s[j])
    decreases |s|
  {
    if |s| == 0 then None
    else if p(s[0]) then Some(0)
    else match FirstIndex(s[1..], p)
      case None => None
      case Some(k) => Some(k + 1)
  }
}

=== FILE: identity.dfy ===
/** The part of ASP.NET Core Identity the authentication endpoints see:
    the credential records, the result of `UserManager.CreateAsync`, and
    the error dictionary registration builds from a failed result.
    Password hashing and the store's validators are an oracle. */
module Identity {
  import opened Common

  /** An `IdentityUser` (a credential record); `id` is opaque. */
  datatype IdentityUser = IdentityUser(id: string, email: string, userName: string)

  /** One entry of `IdentityResult.Errors`. */
  datatype IdentityError = IdentityError(code: string, description: string)

  /** What `UserManager.CreateAsync` reports: the new record's id, or the
      validation errors (duplicate email, weak password, ...). */
  datatype CreateResult = Created(id: string) | Failed(errors: seq<IdentityError>)

  /** `UserManager.CreateAsync` as an oracle over the existing credentials
      and the (email, user name, password) triple. */
  type CreateOracle = (seq<IdentityUser>, string, string, string) -> CreateResult

  /** `UserManager.CheckPasswordAsync` as an oracle. */
  type PasswordOracle = (IdentityUser, string) -> bool

  function Ids(users: seq<IdentityUser>): set<string>
  {
    set u | u in users :: u.id
  }

  /** `UserManager.FindByEmailAsync`, matching the address exactly. */
  function FindByEmail(users: seq<IdentityUser>, email: string): (r: Option<IdentityUser>)
    ensures r.Some? ==> r.value in users && r.value.email == email
    ensures r.None? <==> forall u :: u in users ==> u.email != email
  {
    match FirstIndex(users, (u: IdentityUser) => u.email == email)
    case None => None
    case Some(i) => Some(users[i])
  }

  /** The credential record a refresh-token row's `User` navigation loads. */
  function FindById(users: seq<IdentityUser>, id: string): (r: Option<IdentityUser>)
    ensures r.Some? ==> r.value in users && r.value.id == id
    ensures r.None? <==> id !in Ids(users)
  {
    match FirstIndex(users, (u: IdentityUser) => u.id == id)
    case None => None
    case Some(i) => Some(users[i])
  }

  /** No two errors share a code. */
  predicate CodesDistinct(errors: seq<IdentityError>)
  {
    forall i, j :: 0 <= i < j < |errors| ==> errors[i].code != errors[j].code
  }

  function Codes(errors: seq<IdentityError>): set<string>
  {
    set e | e in errors :: e.code
  }

  /** `errors.ToDictionary(e => e.Code, e => e.Description)`: a code to
      description map, or `None` where LINQ throws because a code repeats. */
  function ToDictionary(errors: seq<IdentityError>): (m: Option<map<string, string>>)
    ensures m.Some? <==> CodesDistinct(errors)
    ensures m.Some? ==> m.value.Keys == Codes(errors)
    ensures m.Some? ==> forall e :: e in errors ==> m.value[e.code] == e.description
  {
    AddAll(map[], errors)
  }

  /** Adds `errors` to `acc` in order, failing at the first code already
      present, as `Dictionary.Add` does. */
  function AddAll(acc: map<string, string>, errors: seq<IdentityError>): (m: Option<map<string, string>>)
    ensures m.Some? <==> (CodesDistinct(errors) && Codes(errors) !! acc.Keys)
    ensures m.Some? ==> m.value.Keys == acc.Keys + Codes(errors)
    ensures m.Some? ==> forall e :: e in errors ==> m.value[e.code] == e.description
    ensures m.Some? ==> forall k :: k in acc ==> m.value[k] == acc[k]
    decreases |errors|
  {
    if |errors| == 0 then Some(acc)
    else
      var e := errors[0];
      if e.code in acc then None
      else
        var rest := AddAll(acc[e.code := e.description], errors[1..]);
        assert Codes(errors) == {e.code} + Codes(errors[1..]) by {
          assert forall x :: x in errors <==> x == e || x in errors[1..];
        }
        assert CodesDistinct(errors) <==> CodesDistinct(errors[1..]) && e.code !in Codes(errors[1..]) by {
          if CodesDistinct(errors) {
            forall x | x in errors[1..] ensures x.code != e.code {
              var j :| 0 <= j < |errors[1..]| && errors[1..][j] == x;
              assert errors[j + 1] == x;
            }
          }
          if CodesDistinct(errors[1..]) && e.code !in Codes(errors[1..]) {
            forall i, j | 0 <= i < j < |errors| ensures errors[i].code != errors[j].code {
              if i == 0 {
                assert errors[j] in errors[1..];
              } else {
                assert errors[i] == errors[1..][i - 1] && errors[j] == errors[1..][j - 1];
              }
            }
          }
        }
        rest
  }
}

=== FILE: tag_properties.dfy ===
/** Store invariants of the tag endpoints: the per-user quota, unique
    ids, per-user unique names, and that an operation on one user's tag
    leaves every other user's tags alone. */
module TagProperties {
  import opened Common
  import opened Tags

  /** No user owns more than `max` tags. */
  ghost predicate WithinQuota(store: seq<Tag>, max: int)
  {
    forall u :: CountOwned(store, u) <= max
  }

  predicate UniqueIds(store: seq<Tag>)
  {
    forall i, j :: 0 <= i < j < |store| ==> store[i].id != store[j].id
  }

  /** No user owns two tags with the same name. */
  predicate UniqueNamesPerUser(store: seq<Tag>)
  {
    forall i, j :: 0 <= i < j < |store| && store[i].userId == store[j].userId ==> store[i].name != store[j].name
  }

  function TagIds(store: seq<Tag>): set<string>
  {
    set t | t in store :: t.id
  }

  /** Filtering by owner distributes over concatenation. */
  lemma {:induction false} OwnedByAppend(a: seq<Tag>, b: seq<Tag>, u: string)
    ensures OwnedBy(a + b, u) == OwnedBy(a, u) + OwnedBy(b, u)
    decreases |a|
  {
    if |a| == 0 {
      assert a + b == b;
    } else {
      assert (a + b)[1..] == a[1..] + b;
      assert (a + b)[0] == a[0];
      OwnedByAppend(a[1..], b, u);
    }
  }

  lemma Split(store: seq<Tag>, i: nat)
    requires i < |store|
    ensures store == store[..i] + [store[i]] + store[i + 1..]
  {
  }

  /** What an owner filter sees of a store around position `i`. */
  lemma OwnedAround(store: seq<Tag>, i: nat, x: Tag, u: string)
    requires i < |store|
    ensures OwnedBy(store, u) == OwnedBy(store[..i], u) + OwnedBy([store[i]], u) + OwnedBy(store[i + 1..], u)
    ensures OwnedBy(store[i := x], u) == OwnedBy(store[..i], u) + OwnedBy([x], u) + OwnedBy(store[i + 1..], u)
    ensures OwnedBy(store[..i] + store[i + 1..], u) == OwnedBy(store[..i], u) + OwnedBy(store[i + 1..], u)
  {
    Split(store, i);
    OwnedByAppend(store[..i] + [store[i]], store[i + 1..], u);
    OwnedByAppend(store[..i], [store[i]], u);
    var s' := store[i := x];
    assert s' == store[..i] + [x] + store[i + 1..];
    OwnedByAppend(store[..i] + [x], store[i + 1..], u);
    OwnedByAppend(store[..i], [x], u);
    OwnedByAppend(store[..i], store[i + 1..], u);
  }

  /** A successful create adds one tag to the caller's tags and none to
      anyone else's. */
  lemma CreateAddsOneOwnedTag(store: seq<Tag>, userId: Option<string>, dto: CreateTagDto, includeLinks: bool,
                              validate: Validator, options: TagsOptions, newId: string, now: int, v: string)
    requires CreateTag(store, userId, dto, includeLinks, validate, options, newId, now).0.CreatedAt?
    ensures var store' := CreateTag(store, userId, dto, includeLinks, validate, options, newId, now).1;
            && (v != userId.value ==> OwnedBy(store', v) == OwnedBy(store, v))
            && CountOwned(store', v) == CountOwned(store, v) + (if v == userId.value then 1 else 0)
  {
    var store' := CreateTag(store, userId, dto, includeLinks, validate, options, newId, now).1;
    var tag := Tag(newId, userId.value, dto.name, dto.description, now, None);
    OwnedByAppend(store, [tag], v);
  }

  /** Create never takes a user past the quota. */
  lemma CreatePreservesQuota(store: seq<Tag>, userId: Option<string>, dto: CreateTagDto, includeLinks: bool,
                             validate: Validator, options: TagsOptions, newId: string, now: int)
    requires WithinQuota(store, options.maxAllowedTags)
    ensures WithinQuota(CreateTag(store, userId, dto, includeLinks, validate, options, newId, now).1,
                        options.maxAllowedTags)
  {
    var out := CreateTag(store, userId, dto, includeLinks, validate, options, newId, now);
    if out.0.CreatedAt? {
      forall u ensures CountOwned(out.1, u) <= options.maxAllowedTags {
        CreateAddsOneOwnedTag(store, userId, dto, includeLinks, validate, options, newId, now, u);
      }
    }
  }

  /** Create never gives a user two tags of one name. */
  lemma CreatePreservesUniqueNames(store: seq<Tag>, userId: Option<string>, dto: CreateTagDto, includeLinks: bool,
                                   validate: Validator, options: TagsOptions, newId: string, now: int)
    requires UniqueNamesPerUser(store)
    ensures UniqueNamesPerUser(CreateTag(store, userId, dto, includeLinks, validate, options, newId, now).1)
  {
    var out := CreateTag(store, userId, dto, includeLinks, validate, options, newId, now);
    if out.0.CreatedAt? {
      var s := out.1;
      forall i, j | 0 <= i < j < |s| && s[i].userId == s[j].userId ensures s[i].name != s[j].name {
        if j == |store| {
          assert s[i] in store;
        }
      }
    }
  }

  /** Create with a fresh id keeps ids unique. */
  lemma CreatePreservesUniqueIds(store: seq<Tag>, userId: Option<string>, dto: CreateTagDto, includeLinks: bool,
                                 validate: Validator, options: TagsOptions, newId: string, now: int)
    requires UniqueIds(store) && newId !in TagIds(store)
    ensures UniqueIds(CreateTag(store, userId, dto, includeLinks, validate, options, newId, now).1)
  {
    var out := CreateTag(store, userId, dto, includeLinks, validate, options, newId, now);
    if out.0.CreatedAt? {
      var s := out.1;
      forall i, j | 0 <= i < j < |s| ensures s[i].id != s[j].id {
        if j == |store| {
          assert s[i] in store;
        }
      }
    }
  }

  /** An update leaves every user's tag count as it was and every other
      user's tags untouched. */
  lemma UpdateIsolation(store: seq<Tag>, userId: Option<string>, id: string, dto: UpdateTagDto, now: int, v: string)
    requires UpdateTag(store, userId, id, dto, now).0.NoContent?
    ensures var store' := UpdateTag(store, userId, id, dto, now).1;
            && (v != userId.value ==> OwnedBy(store', v) == OwnedBy(store, v))
            && CountOwned(store', v) == CountOwned(store, v)
  {
    var i := OwnedIndex(store, userId.value, id).value;
    var store' := UpdateTag(store, userId, id, dto, now).1;
    assert store' == store[i := store'[i]];
    OwnedAround(store, i, store'[i], v);
  }

  /** Update keeps the quota and unique ids. */
  lemma UpdatePreservesInvariants(store: seq<Tag>, userId: Option<string>, id: string, dto: UpdateTagDto,
                                  now: int, max: int)
    requires WithinQuota(store, max) && UniqueIds(store)
    ensures var store' := UpdateTag(store, userId, id, dto, now).1;
            WithinQuota(store', max) && UniqueIds(store')
  {
    var out := UpdateTag(store, userId, id, dto, now);
    if out.0.NoContent? {
      forall u ensures CountOwned(out.1, u) <= max {
        UpdateIsolation(store, userId, id, dto, now, u);
      }
      var i := OwnedIndex(store, userId.value, id).value;
      forall a, b | 0 <= a < b < |out.1| ensures out.1[a].id != out.1[b].id {
        assert out.1[a].id == store[a].id && out.1[b].id == store[b].id;
      }
    }
  }

  /** Update does not re-check names: renaming a tag can give its owner
      two tags of one name. The `Tag` entity configuration is not part of
      this model; a unique index on (UserId, Name) there would make the
      save throw instead, and the duplicate would never be stored. */
  lemma UpdateMayDuplicateName()
    ensures var store := [Tag("t1", "u", "home", None, 0, None), Tag("t2", "u", "work", None, 0, None)];
            && UniqueNamesPerUser(store)
            && var out := UpdateTag(store, Some("u"), "t2", UpdateTagDto("home", None), 1);
               out.0 == NoContent && !UniqueNamesPerUser(out.1)
  {
    var store := [Tag("t1", "u", "home", None, 0, None), Tag("t2", "u", "work", None, 0, None)];
    NotBlank("u");
    SecondTagFound(store);
    var out := UpdateTag(store, Some("u"), "t2", UpdateTagDto("home", None), 1);
    assert out.1 == [store[0], store[1].(name := "home", updatedAtUtc := Some(1))];
    assert UniqueNamesPerUser(store) by {
      assert "home" != "work" by { assert "home"[0] != "work"[0]; }
    }
  }

  lemma NotBlank(v: string)
    requires |v| > 0 && !IsWhiteSpace(v[0])
    ensures !IsNullOrWhiteSpace(Some(v))
  {
  }

  lemma SecondTagFound(store: seq<Tag>)
    requires store == [Tag("t1", "u", "home", None, 0, None), Tag("t2", "u", "work", None, 0, None)]
    ensures OwnedIndex(store, "u", "t2") == Some(1)
  {
  }

  /** A delete removes one of the caller's tags and nobody else's. */
  lemma DeleteIsolation(store: seq<Tag>, userId: Option<string>, id: string, v: string)
    requires DeleteTag(store, userId, id).0.NoContent?
    ensures var store' := DeleteTag(store, userId, id).1;
            && (v != userId.value ==> OwnedBy(store', v) == OwnedBy(store, v))
            && CountOwned(store', v) == CountOwned(store, v) - (if v == userId.value then 1 else 0)
  {
    var i := OwnedIndex(store, userId.value, id).value;
    RemoveAtOwned(store, i, v);
  }

  lemma RemoveAtOwned(store: seq<Tag>, i: nat, v: string)
    requires i < |store|
    ensures v != store[i].userId ==> OwnedBy(store[..i] + store[i + 1..], v) == OwnedBy(store, v)
    ensures CountOwned(store[..i] + store[i + 1..], v) == CountOwned(store, v) - (if v == store[i].userId then 1 else 0)
  {
    RemoveAtOthers(store, i, v);
    RemoveAtCount(store, i, v);
  }

  lemma RemoveAtOthers(store: seq<Tag>, i: nat, v: string)
    requires i < |store|
    ensures v != store[i].userId ==> OwnedBy(store[..i] + store[i + 1..], v) == OwnedBy(store, v)
  {
    var a, x, b := store[..i], store[i], store[i + 1..];
    assert store == (a + [x]) + b;
    OwnedWithout(a, x, b, v);
  }

  lemma RemoveAtCount(store: seq<Tag>, i: nat, v: string)
    requires i < |store|
    ensures CountOwned(store[..i] + store[i + 1..], v) == CountOwned(store, v) - (if v == store[i].userId then 1 else 0)
  {
    var a, x, b := store[..i], store[i], store[i + 1..];
    assert store == (a + [x]) + b;
    OwnedWithout(a, x, b, v);
  }

  lemma OwnedWithout(a: seq<Tag>, x: Tag, b: seq<Tag>, v: string)
    ensures OwnedBy((a + [x]) + b, v) == OwnedBy(a, v) + OwnedBy([x], v) + OwnedBy(b, v)
    ensures OwnedBy(a + b, v) == OwnedBy(a, v) + OwnedBy(b, v)
    ensures OwnedBy([x], v) == if x.userId == v then [x] else []
  {
    OwnedByAppend(a + [x], b, v);
    OwnedByAppend(a, [x], v);
    OwnedByAppend(a, b, v);
    OwnedBySingleton(x, v);
  }

  lemma OwnedBySingleton(t: Tag, v: string)
    ensures OwnedBy([t], v) == if t.userId == v then [t] else []
  {
    assert [t][1..] == [];
  }

  /** With unique ids, delete removes exactly the tag with that id. */
  lemma DeleteRemovesExactlyThatTag(store: seq<Tag>, userId: Option<string>, id: string)
    requires UniqueIds(store)
    requires DeleteTag(store, userId, id).0.NoContent?
    ensures var store' := DeleteTag(store, userId, id).1;
            forall t :: t in store' <==> t in store && t.id != id
  {
    var i := OwnedIndex(store, userId.value, id).value;
    RemoveAtMembers(store, i);
  }

  lemma RemoveAtMembers(store: seq<Tag>, i: nat)
    requires UniqueIds(store) && i < |store|
    ensures forall t :: t in store[..i] + store[i + 1..] <==> t in store && t.id != store[i].id
  {
    var a, b := store[..i], store[i + 1..];
    forall t | t in a + b ensures t in store && t.id != store[i].id {
      var k :| 0 <= k < |a + b| && (a + b)[k] == t;
      var k' := if k < i then k else k + 1;
      assert store[k'] == t && k' != i;
    }
    forall t | t in store && t.id != store[i].id ensures t in a + b {
      var k :| 0 <= k < |store| && store[k] == t;
      if k < i {
        assert (a + b)[k] == t;
      } else {
        assert (a + b)[k - 1] == t;
      }
    }
  }

  /** Delete keeps the quota, unique ids and unique names. */
  lemma DeletePreservesInvariants(store: seq<Tag>, userId: Option<string>, id: string, max: int)
    requires WithinQuota(store, max) && UniqueIds(store) && UniqueNamesPerUser(store)
    ensures var store' := DeleteTag(store, userId, id).1;
            WithinQuota(store', max) && UniqueIds(store') && UniqueNamesPerUser(store')
  {
    var out := DeleteTag(store, userId, id);
    if out.0.NoContent? {
      var i := OwnedIndex(store, userId.value, id).value;
      forall u ensures CountOwned(out.1, u) <= max {
        DeleteIsolation(store, userId, id, u);
      }
      var s := out.1;
      forall a, b | 0 <= a < b < |s|
        ensures s[a].id != s[b].id
        ensures s[a].userId == s[b].userId ==> s[a].name != s[b].name
      {
        var a' := if a < i then a else a + 1;
        var b' := if b < i then b else b + 1;
        assert s[a] == store[a'] && s[b] == store[b'] && a' < b';
      }
    }
  }

  /** The listing holds exactly the caller's tags. */
  lemma GetTagsExactlyOwned(store: seq<Tag>, userId: Option<string>, includeLinks: bool, options: TagsOptions)
    requires !IsNullOrWhiteSpace(userId)
    ensures var items := GetTags(store, userId, includeLinks, options).collection.items;
            && (forall t :: t in store && t.userId == userId.value ==>
                  ToDto(t, if includeLinks then CreateLinksForTag(t.id) else []) in items)
            && (forall d :: d in items ==>
                  exists t :: t in store && t.userId == userId.value
                              && d == ToDto(t, if includeLinks then CreateLinksForTag(t.id) else []))
  {
    var owned := OwnedBy(store, userId.value);
    var items := GetTags(store, userId, includeLinks, options).collection.items;
    forall t | t in store && t.userId == userId.value
      ensures ToDto(t, if includeLinks then CreateLinksForTag(t.id) else []) in items
    {
      var k :| 0 <= k < |owned| && owned[k] == t;
      assert items[k] == ToDto(t, if includeLinks then CreateLinksForTag(t.id) else []);
    }
    forall d | d in items
      ensures exists t :: t in store && t.userId == userId.value
                          && d == ToDto(t, if includeLinks then CreateLinksForTag(t.id) else [])
    {
      var k :| 0 <= k < |items| && items[k] == d;
      assert owned[k] in owned;
    }
  }
}

=== FILE: tags.dfy ===
/** `TagsController`: every operation is scoped to the caller's user id
    over one store of tags. Validation is an oracle returning the
    FluentValidation failures; ids and the clock are inputs. */
module Tags {
  import opened Common

  datatype Tag = Tag(id: string, userId: string, name: string, description: Option<string>,
                     createdAtUtc: int, updatedAtUtc: Option<int>)

  datatype CreateTagDto = CreateTagDto(name: string, description: Option<string>)
  datatype UpdateTagDto = UpdateTagDto(name: string, description: Option<string>)

  /** A HATEOAS link: the target action, its relation, its HTTP method and
      the route id it carries, if any. */
  datatype Link = Link(action: string, rel: string, httpMethod: string, id: Option<string>)

  datatype TagDto = TagDto(id: string, name: string, description: Option<string>,
                           createdAtUtc: int, updatedAtUtc: Option<int>, links: seq<Link>)

  datatype TagsCollectionDto = TagsCollectionDto(items: seq<TagDto>, links: seq<Link>)

  /** One FluentValidation failure. */
  datatype ValidationFailure = ValidationFailure(propertyName: string, errorMessage: string)

  /** `IValidator<CreateTagDto>.ValidateAsync`; valid when nothing fails. */
  type Validator = CreateTagDto -> seq<ValidationFailure>

  datatype TagsOptions = TagsOptions(maxAllowedTags: int)

  /** The HTTP outcomes of the tag endpoints. */
  datatype Response =
    | Unauthorized
    | NotFound
    | NoContent
    | OkCollection(collection: TagsCollectionDto)
    | OkTag(tag: TagDto)
    | CreatedAt(tag: TagDto)
    | ValidationProblem(errors: map<string, seq<string>>)
    | QuotaReached
    | Conflict(name: string)

  const Get := "GET"
  const Post := "POST"
  const Put := "PUT"
  const Delete := "DELETE"

  /** The tags `userId` owns, in store order. */
  function OwnedBy(store: seq<Tag>, userId: string): (owned: seq<Tag>)
    ensures forall t :: t in owned <==> t in store && t.userId == userId
    ensures |owned| <= |store|
    decreases |store|
  {
    if |store| == 0 then []
    else
      var rest := OwnedBy(store[1..], userId);
      assert forall t :: t in store <==> t == store[0] || t in store[1..];
      if store[0].userId == userId then [store[0]] + rest else rest
  }

  /** `Tags.CountAsync(t => t.UserId == userId)`. */
  function CountOwned(store: seq<Tag>, userId: string): (count: nat)
    ensures count <= |store|
    ensures count == 0 <==> forall t :: t in store ==> t.userId != userId
  {
    var owned := OwnedBy(store, userId);
    assert |owned| > 0 ==> owned[0] in owned;
    |owned|
  }

  /** The first tag with this id owned by this user. */
  function OwnedIndex(store: seq<Tag>, userId: string, id: string): (r: Option<nat>)
    ensures r.Some? ==> r.value < |store| && store[r.value].id == id && store[r.value].userId == userId
    ensures r.Some? ==> forall j :: 0 <= j < r.value ==> !(store[j].id == id && store[j].userId == userId)
    ensures r.None? <==> forall t :: t in store ==> !(t.id == id && t.userId == userId)
  {
    FirstIndex(store, (t: Tag) => t.id == id && t.userId == userId)
  }

  /** `TagQueries.ProjectToDto` / `ToDto`, with the links to attach. */
  function ToDto(t: Tag, links: seq<Link>): TagDto
  {
    TagDto(t.id, t.name, t.description, t.createdAtUtc, t.updatedAtUtc, links)
  }

  /** The collection links: always "self"; "create" only while the caller
      is under the quota. */
  function CreateLinksForTags(tagsCount: int, maxAllowedTags: int): (links: seq<Link>)
    ensures |links| >= 1 && links[0] == Link("GetTags", "self", Get, None)
    ensures (exists l :: l in links && l.rel == "create") <==> tagsCount < maxAllowedTags
    ensures forall l :: l in links && l.rel == "create" ==> l == Link("CreateTag", "create", Post, None)
    ensures forall l :: l in links ==> l.rel == "self" || l.rel == "create"
    ensures |links| == if tagsCount < maxAllowedTags then 2 else 1
  {
    var self := [Link("GetTags", "self", Get, None)];
    if tagsCount < maxAllowedTags then self + [Link("CreateTag", "create", Post, None)] else self
  }

  function Rels(links: seq<Link>): seq<string>
  {
    seq(|links|, i requires 0 <= i < |links| => links[i].rel)
  }

  function Methods(links: seq<Link>): seq<string>
  {
    seq(|links|, i requires 0 <= i < |links| => links[i].httpMethod)
  }

  /** The per-tag links: read, update and delete, each for this id. */
  function CreateLinksForTag(id: string): (links: seq<Link>)
    ensures Rels(links) == ["self", "update", "delete"]
    ensures Methods(links) == [Get, Put, Delete]
    ensures forall l :: l in links ==> l.id == Some(id)
  {
    [ Link("GetTag", "self", Get, Some(id)),
      Link("UpdateTag", "update", Put, Some(id)),
      Link("DeleteTag", "delete", Delete, Some(id)) ]
  }

  /** The messages reported for `property`, in order. */
  function MessagesFor(failures: seq<ValidationFailure>, property: string): seq<string>
    decreases |failures|
  {
    if |failures| == 0 then []
    else
      var last := failures[|failures| - 1];
      MessagesFor(failures[..|failures| - 1], property) + (if last.propertyName == property then [last.errorMessage] else [])
  }

  function Properties(failures: seq<ValidationFailure>): set<string>
  {
    set f | f in failures :: f.propertyName
  }

  /** `ValidationResult.ToDictionary()`: failures grouped by property. */
  function GroupByProperty(failures: seq<ValidationFailure>): (errors: map<string, seq<string>>)
    ensures errors.Keys == Properties(failures)
    ensures forall p :: p in errors ==> errors[p] == MessagesFor(failures, p) && |errors[p]| > 0
    decreases |failures|
  {
    if |failures| == 0 then map[]
    else
      var init := failures[..|failures| - 1];
      var last := failures[|failures| - 1];
      var m := GroupByProperty(init);
      assert forall f :: f in failures <==> f in init || f == last by {
        assert failures == init + [last];
      }
      NoMessagesOutside(init, last.propertyName);
      m[last.propertyName := (if last.propertyName in m then m[last.propertyName] else []) + [last.errorMessage]]
  }

  lemma {:induction false} NoMessagesOutside(failures: seq<ValidationFailure>, property: string)
    ensures property !in Properties(failures) ==> MessagesFor(failures, property) == []
    decreases |failures|
  {
    if |failures| > 0 && property !in Properties(failures) {
      var init := failures[..|failures| - 1];
      assert forall f :: f in init ==> f in failures;
      assert failures[|failures| - 1] in failures;
      NoMessagesOutside(init, property);
    }
  }

  /** `GET tags`: the caller's tags, with links when asked for. */
  function GetTags(store: seq<Tag>, userId: Option<string>, includeLinks: bool, options: TagsOptions): (r: Response)
    ensures r == Unauthorized <==> IsNullOrWhiteSpace(userId)
    ensures !IsNullOrWhiteSpace(userId) ==>
              var owned := OwnedBy(store, userId.value);
              && r.OkCollection?
              && |r.collection.items| == |owned|
              && (forall i :: 0 <= i < |owned| ==>
                    r.collection.items[i] == ToDto(owned[i], if includeLinks then CreateLinksForTag(owned[i].id) else []))
              && r.collection.links == (if includeLinks then CreateLinksForTags(|owned|, options.maxAllowedTags) else [])
  {
    if IsNullOrWhiteSpace(userId) then Unauthorized
    else
      var owned := OwnedBy(store, userId.value);
      var items := seq(|owned|, i requires 0 <= i < |owned| =>
                         ToDto(owned[i], if includeLinks then CreateLinksForTag(owned[i].id) else []));
      var links := if includeLinks then CreateLinksForTags(|owned|, options.maxAllowedTags) else [];
      OkCollection(TagsCollectionDto(items, links))
  }

  /** `GET tags/{id}`: found only when both the id and the owner match. */
  function GetTag(store: seq<Tag>, userId: Option<string>, id: string, includeLinks: bool): (r: Response)
    ensures r == Unauthorized <==> IsNullOrWhiteSpace(userId)
    ensures r == NotFound <==>
              !IsNullOrWhiteSpace(userId) && forall t :: t in store ==> !(t.id == id && t.userId == userId.value)
    ensures r.OkTag? ==>
              exists t :: t in store && t.id == id && t.userId == userId.value
                          && r.tag == ToDto(t, if includeLinks then CreateLinksForTag(id) else [])
    ensures r == Unauthorized || r == NotFound || r.OkTag?
  {
    if IsNullOrWhiteSpace(userId) then Unauthorized
    else match OwnedIndex(store, userId.value, id)
      case None => NotFound
      case Some(i) => OkTag(ToDto(store[i], if includeLinks then CreateLinksForTag(id) else []))
  }

  /** The caller already owns a tag with this name. */
  predicate NameTaken(store: seq<Tag>, userId: string, name: string): (taken: bool)
    ensures taken <==> exists t :: t in OwnedBy(store, userId) && t.name == name
  {
    exists t :: t in store && t.userId == userId && t.name == name
  }

  /** `POST tags`: validation, then the quota, then per-user name
      uniqueness; only then is the tag added. */
  function CreateTag(store: seq<Tag>, userId: Option<string>, dto: CreateTagDto, includeLinks: bool,
                     validate: Validator, options: TagsOptions, newId: string, now: int): (out: (Response, seq<Tag>))
    ensures !out.0.CreatedAt? ==> out.1 == store
    ensures out.0 == Unauthorized <==> IsNullOrWhiteSpace(userId)
    ensures out.0.ValidationProblem? <==> !IsNullOrWhiteSpace(userId) && |validate(dto)| > 0
    ensures out.0.ValidationProblem? ==>
              && out.0.errors.Keys == Properties(validate(dto))
              && forall p :: p in out.0.errors ==> out.0.errors[p] == MessagesFor(validate(dto), p)
    ensures out.0 == QuotaReached <==>
              && !IsNullOrWhiteSpace(userId) && |validate(dto)| == 0
              && CountOwned(store, userId.value) >= options.maxAllowedTags
    ensures out.0.Conflict? <==>
              && !IsNullOrWhiteSpace(userId) && |validate(dto)| == 0
              && CountOwned(store, userId.value) < options.maxAllowedTags
              && NameTaken(store, userId.value, dto.name)
    ensures out.0.CreatedAt? ==>
              var tag := Tag(newId, userId.value, dto.name, dto.description, now, None);
              && out.1 == store + [tag]
              && out.0.tag == ToDto(tag, if includeLinks then CreateLinksForTag(newId) else [])
    ensures out.0.Conflict? ==> out.0.name == dto.name
    ensures out.0 == Unauthorized || out.0.ValidationProblem? || out.0 == QuotaReached
            || out.0.Conflict? || out.0.CreatedAt?
  {
    if IsNullOrWhiteSpace(userId) then (Unauthorized, store)
    else
      var uid := userId.value;
      var failures := validate(dto);
      if |failures| > 0 then (ValidationProblem(GroupByProperty(failures)), store)
      else if CountOwned(store, uid) >= options.maxAllowedTags then (QuotaReached, store)
      else
        var tag := Tag(newId, uid, dto.name, dto.description, now, None);
        if NameTaken(store, uid, tag.name) then (Conflict(tag.name), store)
        else (CreatedAt(ToDto(tag, if includeLinks then CreateLinksForTag(tag.id) else [])), store + [tag])
  }

  /** `PUT tags/{id}`: rewrites the caller's tag with that id. */
  function UpdateTag(store: seq<Tag>, userId: Option<string>, id: string, dto: UpdateTagDto, now: int)
    : (out: (Response, seq<Tag>))
    ensures !out.0.NoContent? ==> out.1 == store
    ensures out.0 == Unauthorized <==> IsNullOrWhiteSpace(userId)
    ensures out.0 == NotFound <==>
              !IsNullOrWhiteSpace(userId) && forall t :: t in store ==> !(t.id == id && t.userId == userId.value)
    ensures out.0 == Unauthorized || out.0 == NotFound || out.0 == NoContent
    ensures |out.1| == |store|
    ensures out.0.NoContent? ==>
              var i := OwnedIndex(store, userId.value, id).value;
              && out.1[i] == store[i].(name := dto.name, description := dto.description, updatedAtUtc := Some(now))
              && forall j :: 0 <= j < |store| && j != i ==> out.1[j] == store[j]
  {
    if IsNullOrWhiteSpace(userId) then (Unauthorized, store)
    else match OwnedIndex(store, userId.value, id)
      case None => (NotFound, store)
      case Some(i) =>
        var tag := store[i];
        (NoContent, store[i := tag.(name := dto.name, description := dto.description, updatedAtUtc := Some(now))])
  }

  /** `DELETE tags/{id}`: removes the caller's tag with that id. */
  function DeleteTag(store: seq<Tag>, userId: Option<string>, id: string): (out: (Response, seq<Tag>))
    ensures !out.0.NoContent? ==> out.1 == store
    ensures out.0 == Unauthorized <==> IsNullOrWhiteSpace(userId)
    ensures out.0 == NotFound <==>
              !IsNullOrWhiteSpace(userId) && forall t :: t in store ==> !(t.id == id && t.userId == userId.value)
    ensures out.0 == Unauthorized || out.0 == NotFound || out.0 == NoContent
    ensures out.0.NoContent? ==>
              var i := OwnedIndex(store, userId.value, id).value;
              && out.1 == store[..i] + store[i + 1..]
              && |out.1| == |store| - 1
  {
    if IsNullOrWhiteSpace(userId) then (Unauthorized, store)
    else match OwnedIndex(store, userId.value, id)
      case None => (NotFound, store)
      case Some(i) => (NoContent, store[..i] + store[i + 1..])
  }
}

=== FILE: tokens.dfy ===
/** Token issuance as the endpoints consume it. `TokenProvider.Create`
    turns a (subject id, email) request into an access token and a
    refresh-token value; signing the access token is a parameter. */
module Tokens {

  datatype TokenRequest = TokenRequest(userId: string, email: string)

  /** The response body of every successful authentication call. */
  datatype AccessTokens = AccessTokens(accessToken: string, refreshToken: string)

  /** One call of `TokenProvider.Create`. */
  type Issuer = TokenRequest -> AccessTokens

  /** The signed, time-boxed access token built from a request. */
  type Signer = TokenRequest -> string

  /** `TokenProvider.Create` as written: the refresh value is `string.Empty`
      on every call. */
  function AsWrittenIssuer(sign: Signer): (issue: Issuer)
    ensures forall req :: issue(req).refreshToken == ""
    ensures forall req :: issue(req).accessToken == sign(req)
  {
    (req: TokenRequest) => AccessTokens(sign(req), "")
  }

  /** The intended generator: a value fresh on every call. The random
      source is a nonce the caller never repeats; the value is never empty
      and reads back as that nonce, so two calls share a value only when
      they share a nonce. */
  function FreshIssuer(sign: Signer, nonce: nat): (issue: Issuer)
    ensures forall req :: issue(req).refreshToken != ""
    ensures forall req :: ParseDecimal(issue(req).refreshToken) == nonce
    ensures forall req :: issue(req).accessToken == sign(req)
  {
    DecimalRoundTrip(nonce);
    assert RefreshValue(nonce) == Decimal(nonce);
    (req: TokenRequest) => AccessTokens(sign(req), RefreshValue(nonce))
  }

  function RefreshValue(nonce: nat): (v: string)
    ensures |v| > 0
    ensures forall i :: 0 <= i < |v| ==> '0' <= v[i] <= '9'
  {
    Decimal(nonce)
  }

  function Digit(d: nat): (c: char)
    requires d < 10
    ensures '0' <= c <= '9'
  {
    ['0', '1', '2', '3', '4', '5', '6', '7', '8', '9'][d]
  }

  function DigitValue(c: char): (d: nat)
    ensures d < 10
  {
    if '0' <= c <= '9' then (c as int) - ('0' as int) else 0
  }

  lemma DigitRoundTrip(d: nat)
    requires d < 10
    ensures DigitValue(Digit(d)) == d
  {
  }

  /** The decimal digits of `n`, most significant first, with no leading
      zero. */
  function Decimal(n: nat): (s: string)
    ensures |s| > 0
    ensures forall i :: 0 <= i < |s| ==> '0' <= s[i] <= '9'
    decreases n
  {
    if n < 10 then [Digit(n)] else Decimal(n / 10) + [Digit(n % 10)]
  }

  /** Reads decimal digits back into a number. */
  function ParseDecimal(s: string): nat
    decreases |s|
  {
    if |s| == 0 then 0 else ParseDecimal(s[..|s| - 1]) * 10 + DigitValue(s[|s| - 1])
  }

  lemma {:induction false} DecimalRoundTrip(n: nat)
    ensures ParseDecimal(Decimal(n)) == n
    decreases n
  {
    if n < 10 {
      DigitRoundTrip(n);
      assert Decimal(n)[..0] == [];
    } else {
      var s := Decimal(n);
      assert s[..|s| - 1] == Decimal(n / 10);
      DecimalRoundTrip(n / 10);
      DigitRoundTrip(n % 10);
    }
  }

  /** Distinct nonces never yield the same refresh value, and no value is
      empty: the two facts rotation depends on. */
  lemma RefreshValueInjective(n: nat, m: nat)
    ensures RefreshValue(n) == RefreshValue(m) <==> n == m
    ensures RefreshValue(n) != ""
  {
    DecimalRoundTrip(n);
    DecimalRoundTrip(m);
  }
}

=== FILE: transaction.dfy ===
/** The commit/rollback effect of the one database transaction that
    registration opens on the identity context and shares with the
    application context. Writes go to `pending`; only `Commit` makes them
    the visible state, and disposing the transaction without committing
    (`Rollback`) leaves the state it was opened on. */
module Transaction {

  datatype Tx<S> = Tx(snapshot: S, pending: S)

  /** `BeginTransactionAsync`: nothing written yet, so committing or
      rolling back straight away both give the state it was opened on. */
  function Begin<S>(state: S): (tx: Tx<S>)
    ensures Commit(tx) == state && Rollback(tx) == state
  {
    Tx(state, state)
  }

  /** A write enlisted in the transaction: a commit would include it, a
      rollback would not. */
  function Write<S>(tx: Tx<S>, f: S -> S): (tx': Tx<S>)
    ensures Commit(tx') == f(Commit(tx))
    ensures Rollback(tx') == Rollback(tx)
  {
    tx.(pending := f(tx.pending))
  }

  /** Enlists the writes in order. */
  function WriteAll<S>(tx: Tx<S>, writes: seq<S -> S>): Tx<S>
    decreases |writes|
  {
    if |writes| == 0 then tx else WriteAll(Write(tx, writes[0]), writes[1..])
  }

  /** The state the writes produce when applied directly, in order. */
  function ApplyAll<S>(state: S, writes: seq<S -> S>): S
    decreases |writes|
  {
    if |writes| == 0 then state else ApplyAll(writes[0](state), writes[1..])
  }

  /** `CommitAsync`: every enlisted write becomes visible together. */
  function Commit<S>(tx: Tx<S>): S
  {
    tx.pending
  }

  /** Disposal without a commit: none of the enlisted writes survive. */
  function Rollback<S>(tx: Tx<S>): S
  {
    tx.snapshot
  }

  /** Committing after any sequence of writes publishes exactly their
      combined effect on the state the transaction was opened on. */
  lemma {:induction false} CommitPublishesWrites<S>(state: S, writes: seq<S -> S>)
    ensures Commit(WriteAll(Begin(state), writes)) == ApplyAll(state, writes)
  {
    CommitAfter(Begin(state), writes);
  }

  lemma {:induction false} CommitAfter<S>(tx: Tx<S>, writes: seq<S -> S>)
    ensures Commit(WriteAll(tx, writes)) == ApplyAll(Commit(tx), writes)
    decreases |writes|
  {
    if |writes| > 0 {
      CommitAfter(Write(tx, writes[0]), writes[1..]);
    }
  }

  /** Disposing the transaction without a commit, after any sequence of
      writes, leaves the state it was opened on. */
  lemma {:induction false} RollbackDiscardsWrites<S>(state: S, writes: seq<S -> S>)
    ensures Rollback(WriteAll(Begin(state), writes)) == state
  {
    RollbackAfter(Begin(state), writes);
  }

  lemma {:induction false} RollbackAfter<S>(tx: Tx<S>, writes: seq<S -> S>)
    ensures Rollback(WriteAll(tx, writes)) == Rollback(tx)
    decreases |writes|
  {
    if |writes| > 0 {
      RollbackAfter(Write(tx, writes[0]), writes[1..]);
    }
  }
}
